=== FILE: README.md ===
# Log-level resolution and logger bootstrap of go-microservice-starter

This project models, in Dafny, the logging bootstrap of the go-microservice-starter
service (`log/logger.go`): how the service turns the optional `log_level` entry of its
JSON configuration file into a zap severity level, how the attempt to read that file is
classified (missing file, unreadable or malformed file, decoded document), the level
filter the installed logger applies to every message, and the order in which
`Initialize` performs its fallible steps and when it installs the process-wide `Logger`.

Modules:

- `Levels` (`levels.dfy`): the zapcore levels with their integer values
  (Debug -1, Info 0, Warn 1, Error 2, DPanic 3, Panic 4, Fatal 5), the default level
  Info, the six levels a configuration can name, and zap's lower-case level names.
- `CaseFold` (`casefold.dfy`): lower-casing as `strings.ToLower` does it, for the
  characters that can lower-case onto the ASCII level names.
- `LevelConfig` (`levelconfig.dfy`): `stringToLogLevel` and `loadLogLevel`; the file
  read is an abstract outcome (`OpenFailed`, `DecodeFailed`, `Decoded`).
- `Enabler` (`enabler.dfy`): the `level >= configured` filter and what it lets through
  from a run of logging calls.
- `Bootstrap` (`bootstrap.dfy`): the skeleton of `Initialize` over an abstract
  environment that answers each filesystem call.
- `Errors` (`errors.dfy`): Go's nil-or-value results, errors reduced to whether they
  are the "does not exist" error, and the "return the first non-nil error" discipline.

Three facts about the code that the model makes explicit:

- Severity order is zapcore's integer order, in which Panic (4) is below Fatal (5);
  DPanic (3) lies between Error and Panic but can never be configured.
- `Initialize` treats only a "does not exist" answer from `os.Stat` as a reason to make
  the directory. Any other `os.Stat` failure is ignored and the file is opened anyway
  (`Bootstrap.OtherStatErrorIsIgnored`).
- A configuration file that exists but cannot be opened or decoded makes `Initialize`
  return that error.

## Model

| member | source | states |
|---|---|---|
| `Levels.Rank` | log/logger.go:65-67 | each level's zapcore integer value, which the filter compares: Debug is the only level at -1, Fatal the only one at 5, and every level lies between |
| `Levels.RankIsOrder` | log/logger.go:65-67 | two levels of equal integer value are the same level, and the integer order is zapcore's declaration order Debug, Info, Warn, Error, DPanic, Panic, Fatal (so Panic is below Fatal) |
| `CaseFold.LowerChar` | log/logger.go:134 | lower-casing never leaves an ASCII capital, maps each capital to its own lower-case letter, leaves every other ASCII character unchanged, lowers U+0130 to 'i' and U+212A to 'k', and yields an ASCII letter only from that letter, its capital, U+0130 or U+212A |
| `CaseFold.Lower` | log/logger.go:134 | the lower-cased string has the same length and lower-cases every character in place |
| `CaseFold.LowerIdempotent` | log/logger.go:134 | lower-casing an already lower-cased string changes nothing |
| `CaseFold.LowerUndoesCapitals` | log/logger.go:134 | any capitalisation of a lower-case ASCII word lower-cases back to that word |
| `LevelConfig.StringToLevel` | log/logger.go:133-150 | the result is always one of the six configurable levels (never DPanic); a non-default result is justified by the lower-cased input being its name; every configurable level whose name the lower-cased input spells is the result |
| `LevelConfig.NameSelectsLevel` | log/logger.go:135-146 | each of "debug", "info", "warn", "error", "fatal", "panic", in any capitalisation, maps to the level of that name |
| `LevelConfig.CaseInsensitive` | log/logger.go:134 | a string and its lower-case form map to the same level, and so do any two strings that lower-case alike |
| `LevelConfig.SelectsIff` | log/logger.go:133-150 | a non-default level is selected iff the lower-cased input is its name; the default is selected iff the lower-cased input names no other configurable level |
| `LevelConfig.UnknownNameIsDefault` | log/logger.go:147-148 | a string that lower-cases to none of the six names maps to the default level Info |
| `LevelConfig.DottedCapitalI` | log/logger.go:134 | "İNFO" (with U+0130) maps to Info because that character lower-cases to 'i' |
| `LevelConfig.DPanicNameIsDefault` | log/logger.go:133-150 | zap's own name "dpanic" is not recognised and gives Info |
| `LevelConfig.LoadLogLevel` | log/logger.go:112-130 | a missing file gives (Info, no error); any other open failure and any decode failure is returned unchanged; whenever an error is returned the level is Info; a decoded document gives the level its `log_level` names; the level is always configurable |
| `LevelConfig.DefaultsWithoutConfiguration` | log/logger.go:113-129 | a missing file and a document without `log_level` both give (Info, no error) |
| `Enabler.Enabled` | log/logger.go:65-67 | a message level passes the filter iff it comes no earlier than the configured level in zapcore's declaration order; the configured level itself passes |
| `Enabler.AdmitsSuffix` | log/logger.go:65-67 | the filter admits exactly the levels from the configured one onward in zapcore's declaration order |
| `Enabler.AdmitsConfigured` | log/logger.go:65-67 | the configured level itself is admitted |
| `Enabler.UpwardClosed` | log/logger.go:65-67 | if a level is admitted, every more severe level is; if one is refused, every less severe level is |
| `Enabler.Emitted` | log/logger.go:64-74 | the written entries are at most the calls made, and an entry is written iff it was logged at an admitted level |
| `Enabler.EmittedAppend` | log/logger.go:64-74 | filtering is per call: the entries written by two runs of calls are those of each run, in call order |
| `Enabler.DebugWritesEverything` | log/logger.go:64-74 | with the level at Debug every call is written |
| `Enabler.ErrorConfigurationWritesSevereOnly` | log/logger.go:64-74 | with the level at Error a call is written iff it is at Error, DPanic, Panic or Fatal: every written call is at one of those levels, and every call at one of them is written |
| `Errors.FirstError` | log/logger.go:33-50 | nil iff every step's error is nil; otherwise the error of a step before which every step's error was nil |
| `Bootstrap.Initialize` | log/logger.go:31-78 | on error the global logger is unchanged; on success the log file was opened and the logger writes to `application.log` at the loaded level; calls are made in order starting with loading the level, `os.Stat` is called right after every successful load, no call before the last produced an error that `Initialize` returns (a failed `os.Stat` never does), the returned error is the last call's error (nil on success, where the last call is the file open), and the directory is made iff the level loaded and the directory was reported missing |
| `Bootstrap.ReturnsFirstFailure` | log/logger.go:33-50 | the returned error is the first failure among load level, make directory (only when missing), open file; success iff all pass |
| `Bootstrap.LoggerChangesOnlyOnSuccess` | log/logger.go:77-78 | the global logger is replaced only when `Initialize` returns no error |
| `Bootstrap.MissingConfigurationStartsAtDefault` | log/logger.go:31-78 | with no configuration file, the directory present or made, and the file opened, the logger is installed at Info on `application.log` |
| `Bootstrap.OtherStatErrorIsIgnored` | log/logger.go:39-50 | an `os.Stat` failure other than "does not exist" skips the directory creation and the result is that of opening the file |
| `Bootstrap.DecodeErrorStopsStartup` | log/logger.go:33-36 | a malformed configuration stops `Initialize` at the first step with the decoder's error and the logger untouched |
| `Bootstrap.InstalledFilterFollowsConfiguration` | log/logger.go:64-77 | after a successful start the installed logger admits a level iff it is at least the level the configuration names |

## Left out

- Filesystem effects of `os.Open`, `os.Stat`, `os.MkdirAll`, `os.OpenFile`, the file modes 0755 and 0644, and the deferred `file.Close` of the configuration file: each call is an answer in `Bootstrap.Environment` or `LevelConfig.ConfigRead`.
- JSON decoding: `encoding/json` matches keys case-insensitively, rejects non-string values and ignores trailing input; its verdict is the `ConfigRead` value, and a document without `log_level` is `Decoded(Config(""))`.
- `os.IsNotExist` (line 40) and `errors.Is(err, os.ErrNotExist)` (line 115) differ in how deeply they unwrap errors; both are modelled as the single `Errors.IsNotExist` flag.
- `CaseFold.LowerChar`: models `unicode.ToLower` only for ASCII capitals, U+0130 and U+212A; every other character is left as it is. The real mapping sends every other non-ASCII character to a non-ASCII character, so which level a string selects is unaffected. Invalid UTF-8 in Go strings is not modelled; Dafny strings are sequences of Unicode scalar values.
- The zap encoder configuration, the console encoder, `zapcore.NewCore`, caller annotation and caller skip (lines 54-77): configuration of a library that is not part of this model. The `Logger` value keeps only the level and the file.
- `millisecondTimeEncoder` (lines 102-104): time formatting through Go's layout strings.
- The facade functions `Debug`, `Info`, `Warn`, `Error` and `Sync` (lines 82-109): one-line delegations to zap; `Enabler.Emitted` models only which calls reach the file, not the line format. Panic calls panic and Fatal calls exit whether or not the entry is written. DPanic calls return, because the logger is not built in development mode. `Enabler.Emitted` treats every call as returning.
- The log directory is `filepath.Dir("application.log")`; the path computation is not modelled, only the answers of `os.Stat` and `os.MkdirAll` for that directory. The configuration file path is likewise not modelled.
- Levels outside the seven named constants: a `zapcore.Level` is any int8, but only the named constants arise in this code.
- Concurrent writes to the log file, and the process entry point, router and HTTP handler, which hold no logic of the logger.

=== FILE: bootstrap.dfy ===
/** The control skeleton of `Initialize` in log/logger.go: load the level,
    make sure the log directory exists, open the log file, and only then
    install the process-wide logger. The filesystem is not modelled; each call
    is represented by the answer the environment gives to it. */
module Bootstrap {
  import opened Errors
  import opened Levels
  import opened LevelConfig
  import opened Enabler

  /** The log file the logger appends to. */
  const LogFilePath: string := "application.log"

  /** An open, append-only handle on a file. */
  datatype FileHandle = FileHandle(path: string, descriptor: nat)

  /** The answer to opening the log file: a descriptor, or an error. */
  datatype Opened = OpenedFile(descriptor: nat) | OpenError(err: Err)

  /** The installed logger: it writes to `sink` and admits messages at
      `minLevel` and above. */
  datatype Logger = Logger(minLevel: Level, sink: FileHandle)

  /** The fallible calls `Initialize` makes, in the order it makes them. */
  datatype IoStep = LoadLevel | StatLogDir | MakeLogDir | OpenLogFile

  function StepIndex(s: IoStep): nat {
    match s
    case LoadLevel => 0
    case StatLogDir => 1
    case MakeLogDir => 2
    case OpenLogFile => 3
  }

  /** What the environment answers to each call `Initialize` may make:
      the configuration read, the error (if any) of `os.Stat` on the log
      directory, the error (if any) of `os.MkdirAll`, and the result of opening
      the log file. */
  datatype Environment = Environment(
    config: ConfigRead,
    statLogDir: Option<Err>,
    makeLogDir: Option<Err>,
    openLogFile: Opened)

  /** `Initialize`'s returned error, the global `Logger` afterwards, and the
      calls it made, in order. */
  datatype InitResult = InitResult(err: Option<Err>, logger: Option<Logger>, performed: seq<IoStep>)

  /** Whether the log directory is reported missing, so that it must be made. */
  predicate DirMissing(env: Environment) {
    env.statLogDir.Some? && IsNotExist(env.statLogDir.value)
  }

  /** The error one call makes `Initialize` return, `Nil` if none. A failed
      `os.Stat` is never returned: it only decides whether the directory is
      made. */
  function StepError(env: Environment, s: IoStep): Option<Err> {
    match s
    case LoadLevel => LoadLogLevel(env.config).err
    case StatLogDir => Nil
    case MakeLogDir => env.makeLogDir
    case OpenLogFile =>
      match env.openLogFile
      case OpenError(e) => Some(e)
      case OpenedFile(_) => Nil
  }

  /** The errors of the three stages of `Initialize` in order: load the level,
      ensure the directory (making it only when it is missing), open the file. */
  function Stages(env: Environment): seq<Option<Err>> {
    [ StepError(env, LoadLevel),
      if DirMissing(env) then StepError(env, MakeLogDir) else Nil,
      StepError(env, OpenLogFile) ]
  }

  /** `steps` lists calls in the order `Initialize` makes them, each at most once. */
  predicate InCallOrder(steps: seq<IoStep>) {
    forall i, j :: 0 <= i < j < |steps| ==> StepIndex(steps[i]) < StepIndex(steps[j])
  }

  /** Runs `Initialize` against `env` with the global logger currently `logger`. */
  function Initialize(env: Environment, logger: Option<Logger>): (r: InitResult)
    ensures r.err.Some? ==> r.logger == logger
    ensures r.err.Nil? ==>
      env.openLogFile.OpenedFile?
      && r.logger == Some(Logger(LoadLogLevel(env.config).level,
                                 FileHandle(LogFilePath, env.openLogFile.descriptor)))
    ensures |r.performed| > 0 && r.performed[0] == LoadLevel && InCallOrder(r.performed)
    ensures StepError(env, LoadLevel).Nil? ==> |r.performed| >= 2 && r.performed[1] == StatLogDir
    ensures forall i :: 0 <= i < |r.performed| - 1 ==> StepError(env, r.performed[i]).Nil?
    ensures r.err == StepError(env, r.performed[|r.performed| - 1])
    ensures r.err.Nil? ==> r.performed[|r.performed| - 1] == OpenLogFile
    ensures MakeLogDir in r.performed <==> StepError(env, LoadLevel).Nil? && DirMissing(env)
  {
    var loaded := LoadLogLevel(env.config);
    if loaded.err.Some? then
      InitResult(loaded.err, logger, [LoadLevel])
    else if DirMissing(env) && env.makeLogDir.Some? then
      InitResult(env.makeLogDir, logger, [LoadLevel, StatLogDir, MakeLogDir])
    else
      var performed := [LoadLevel, StatLogDir] + (if DirMissing(env) then [MakeLogDir] else []) + [OpenLogFile];
      match env.openLogFile
      case OpenError(e) => InitResult(Some(e), logger, performed)
      case OpenedFile(d) => InitResult(Nil, Some(Logger(loaded.level, FileHandle(LogFilePath, d))), performed)
  }

  /** `Initialize` returns the error of the first failing stage, in the order
      load level, make directory, open file, and succeeds iff every stage
      does. */
  lemma ReturnsFirstFailure(env: Environment, logger: Option<Logger>)
    ensures Initialize(env, logger).err == FirstError(Stages(env))
    ensures Initialize(env, logger).err.Nil? <==>
      forall i :: 0 <= i < |Stages(env)| ==> Stages(env)[i].Nil?
  {
    var s := Stages(env);
    assert s[1..][1..] == [s[2]];
    assert [s[2]][1..] == [];
  }

  /** The global logger changes only on the all-success path. */
  lemma LoggerChangesOnlyOnSuccess(env: Environment, logger: Option<Logger>)
    ensures Initialize(env, logger).logger != logger ==> Initialize(env, logger).err.Nil?
  {
  }

  /** Without a configuration file, a successful start (the directory present,
      or missing and made) installs a logger at the default level. */
  lemma MissingConfigurationStartsAtDefault(env: Environment, logger: Option<Logger>)
    requires env.config.OpenFailed? && IsNotExist(env.config.openErr)
    requires DirMissing(env) ==> env.makeLogDir.Nil?
    requires env.openLogFile.OpenedFile?
    ensures Initialize(env, logger).err.Nil?
    ensures Initialize(env, logger).logger
         == Some(Logger(DefaultLevel, FileHandle(LogFilePath, env.openLogFile.descriptor)))
  {
  }

  /** A failure of `os.Stat` other than "does not exist" does not stop
      `Initialize`: it goes on to open the log file without making the
      directory, and the outcome is the outcome of that open. */
  lemma OtherStatErrorIsIgnored(env: Environment, logger: Option<Logger>)
    requires StepError(env, LoadLevel).Nil?
    requires env.statLogDir.Some? && !IsNotExist(env.statLogDir.value)
    ensures Initialize(env, logger).performed == [LoadLevel, StatLogDir, OpenLogFile]
    ensures Initialize(env, logger).err.Some? <==> env.openLogFile.OpenError?
  {
  }

  /** A malformed configuration file stops `Initialize` before any directory or
      file is touched, and reports the decoder's error. */
  lemma DecodeErrorStopsStartup(env: Environment, logger: Option<Logger>)
    requires env.config.DecodeFailed?
    ensures Initialize(env, logger) == InitResult(Some(env.config.decodeErr), logger, [LoadLevel])
  {
  }

  /** The installed logger writes a message iff its level is at least the
      level the configuration names. */
  lemma InstalledFilterFollowsConfiguration(env: Environment, logger: Option<Logger>, l: Level)
    requires env.config.Decoded?
    requires Initialize(env, logger).err.Nil?
    ensures Initialize(env, logger).logger.Some?
    ensures Enabled(Initialize(env, logger).logger.value.minLevel, l)
        <==> Rank(l) >= Rank(StringToLevel(env.config.config.logLevel))
  {
  }
}

=== FILE: casefold.dfy ===
/** Lower-casing of strings as Go's `strings.ToLower` does it, rune by rune with
    `unicode.ToLower`, to the extent that matters for matching the ASCII level
    names: ASCII capitals, and the two non-ASCII code points whose simple
    lower-case mapping is an ASCII letter (U+0130, LATIN CAPITAL LETTER I WITH
    DOT ABOVE, lowers to 'i'; U+212A, KELVIN SIGN, lowers to 'k'). Every other
    character is left as it is. */
module CaseFold {

  predicate IsAsciiUpper(c: char) {
    'A' <= c <= 'Z'
  }

  predicate IsAsciiLower(c: char) {
    'a' <= c <= 'z'
  }

  /** The ASCII capital of a lower-case ASCII letter. */
  function AsciiUpper(c: char): (u: char)
    requires IsAsciiLower(c)
    ensures IsAsciiUpper(u)
    ensures u as int + 32 == c as int
  {
    (c as int - 32) as char
  }

  /** The simple lower-case mapping of one character. */
  function LowerChar(c: char): (r: char)
    ensures !IsAsciiUpper(r)
    ensures IsAsciiLower(c) ==> r == c
    ensures IsAsciiUpper(c) ==> IsAsciiLower(r) && AsciiUpper(r) == c
    ensures c as int < 128 && !IsAsciiUpper(c) ==> r == c
    ensures c == '\U{0130}' ==> r == 'i'
    ensures c == '\U{212A}' ==> r == 'k'
    ensures IsAsciiLower(r) ==>
      r == c || AsciiUpper(r) == c || c == '\U{0130}' || c == '\U{212A}'
  {
    if IsAsciiUpper(c) then (c as int + 32) as char
    else if c == '\U{0130}' then 'i'
    else if c == '\U{212A}' then 'k'
    else c
  }

  /** Lower-casing a character twice is lower-casing it once. */
  lemma LowerCharIdempotent(c: char)
    ensures LowerChar(LowerChar(c)) == LowerChar(c)
  {
  }

  /** The string with every character lower-cased. */
  function Lower(s: string): (r: string)
    ensures |r| == |s|
    ensures forall i :: 0 <= i < |s| ==> r[i] == LowerChar(s[i])
  {
    if |s| == 0 then [] else [LowerChar(s[0])] + Lower(s[1..])
  }

  /** Lower-casing twice is lower-casing once. */
  lemma LowerIdempotent(s: string)
    ensures Lower(Lower(s)) == Lower(s)
  {
    var once := Lower(s);
    var twice := Lower(once);
    forall i | 0 <= i < |s|
      ensures twice[i] == once[i]
    {
      assert once[i] == LowerChar(s[i]);
      LowerCharIdempotent(s[i]);
    }
  }

  /** `s` is `w` with some of its letters written in capitals. */
  predicate CaseVariant(s: string, w: string) {
    && |s| == |w|
    && forall i :: 0 <= i < |s| ==>
         s[i] == w[i] || (IsAsciiLower(w[i]) && s[i] == AsciiUpper(w[i]))
  }

  /** Every capitalisation of a lower-case word lowers back to that word. */
  lemma LowerUndoesCapitals(s: string, w: string)
    requires CaseVariant(s, w)
    requires forall i :: 0 <= i < |w| ==> IsAsciiLower(w[i])
    ensures Lower(s) == w
  {
    var r := Lower(s);
    forall i | 0 <= i < |s|
      ensures r[i] == w[i]
    {
      assert r[i] == LowerChar(s[i]);
    }
  }
}

=== FILE: enabler.dfy ===
/** The level filter the logger installs (`zap.LevelEnablerFunc` in
    log/logger.go): a message is written iff its level is at least the
    configured one. */
module Enabler {
  import opened Levels

  /** Whether the filter built for `configured` lets a message at `l` through:
      the source compares the zapcore integer values. */
  function Enabled(configured: Level, l: Level): (admitted: bool)
    ensures admitted <==> Position(configured) <= Position(l)
    ensures l == configured ==> admitted
  {
    RankIsOrder(configured, l);
    Rank(l) >= Rank(configured)
  }

  /** The filter admits exactly the levels from `configured` onward in
      zapcore's declaration order. */
  lemma AdmitsSuffix(configured: Level, l: Level)
    ensures Enabled(configured, l) <==> l in Ordered[Position(configured)..]
  {
    var p := Position(configured);
    RankIsOrder(configured, l);
    if Enabled(configured, l) {
      assert Ordered[p..][Position(l) - p] == l;
    }
    if l in Ordered[p..] {
      var k :| p <= k < |Ordered| && Ordered[k] == l;
      assert Position(l) == k;
    }
  }

  /** The configured level itself is admitted. */
  lemma AdmitsConfigured(configured: Level)
    ensures Enabled(configured, configured)
  {
  }

  /** Admission is upward-closed: whatever is more severe than an admitted
      level is admitted too, and whatever is less severe than a refused level
      is refused. */
  lemma UpwardClosed(configured: Level, l: Level, m: Level)
    requires Rank(l) <= Rank(m)
    ensures Enabled(configured, l) ==> Enabled(configured, m)
    ensures !Enabled(configured, m) ==> !Enabled(configured, l)
  {
  }

  /** One logging call: a level and a message. */
  datatype Entry = Entry(level: Level, message: string)

  /** The entries a sequence of logging calls writes, in call order. */
  function Emitted(configured: Level, calls: seq<Entry>): (out: seq<Entry>)
    ensures |out| <= |calls|
    ensures forall e :: e in out <==> e in calls && Enabled(configured, e.level)
  {
    if |calls| == 0 then []
    else if Enabled(configured, calls[0].level) then [calls[0]] + Emitted(configured, calls[1..])
    else Emitted(configured, calls[1..])
  }

  /** Writing is per call: the lines of two runs of calls are the lines of
      each, in order. */
  lemma {:induction false} EmittedAppend(configured: Level, a: seq<Entry>, b: seq<Entry>)
    ensures Emitted(configured, a + b) == Emitted(configured, a) + Emitted(configured, b)
    decreases |a|
  {
    if |a| == 0 {
      assert a + b == b;
    } else {
      assert (a + b)[0] == a[0];
      assert (a + b)[1..] == a[1..] + b;
      EmittedAppend(configured, a[1..], b);
    }
  }

  /** At Debug every call is written. */
  lemma {:induction false} DebugWritesEverything(calls: seq<Entry>)
    ensures Emitted(Debug, calls) == calls
    decreases |calls|
  {
    if |calls| != 0 {
      DebugWritesEverything(calls[1..]);
      assert calls == [calls[0]] + calls[1..];
    }
  }

  /** With the level configured to Error, only Error, DPanic, Panic and Fatal
      calls are written, and every such call is. */
  lemma ErrorConfigurationWritesSevereOnly(calls: seq<Entry>)
    ensures forall e :: e in Emitted(Error, calls) ==> e.level in {Error, DPanic, Panic, Fatal}
    ensures forall e :: e in calls && e.level in {Error, DPanic, Panic, Fatal} ==> e in Emitted(Error, calls)
  {
  }
}

=== FILE: errors.dfy ===
/** Go `error` values as far as the logger looks at them, and the
    "return the first non-nil error" discipline of its callers. */
module Errors {

  /** A Go value that may be `nil`: an `error` result, or the `*zap.Logger`
      global. */
  datatype Option<T> = Nil | Some(value: T)

  /** An error value. The only property the logger inspects is whether the
      error is (or wraps) the "file does not exist" condition, which Go tests
      with `errors.Is(err, os.ErrNotExist)` and `os.IsNotExist(err)`. */
  datatype Err = Err(message: string, notExist: bool)

  predicate IsNotExist(e: Err) {
    e.notExist
  }

  /** The first non-nil error of `errs`, or `Nil` when all are nil. This is what
      a Go function reports when it checks `if err != nil { return err }` after
      each call in turn. */
  function FirstError<E(==)>(errs: seq<Option<E>>): (r: Option<E>)
    ensures r.Nil? <==> forall i :: 0 <= i < |errs| ==> errs[i].Nil?
    ensures r.Some? ==>
      exists i :: 0 <= i < |errs| && errs[i] == r
                  && forall j :: 0 <= j < i ==> errs[j].Nil?
  {
    if |errs| == 0 then Nil
    else if errs[0].Some? then errs[0]
    else
      var rest := FirstError(errs[1..]);
      assert forall i :: 0 <= i < |errs[1..]| ==> errs[1..][i] == errs[i + 1];
      if rest.Some? then
        var k :| 0 <= k < |errs[1..]| && errs[1..][k] == rest
                 && forall j :: 0 <= j < k ==> errs[1..][j].Nil?;
        assert errs[k + 1] == rest;
        assert forall j :: 0 <= j < k + 1 ==> errs[j].Nil?;
        rest
      else
        rest
  }
}

=== FILE: levelconfig.dfy ===
/** Resolving the configured log level: the level name read from the JSON
    configuration file, and the classification of the attempt to read that file
    (`stringToLogLevel` and `loadLogLevel` of log/logger.go). */
module LevelConfig {
  import opened Errors
  import opened Levels
  import opened CaseFold

  /** The decoded configuration document. A document without a `log_level`
      key decodes to the zero value, the empty string. */
  datatype Config = Config(logLevel: string)

  /** The configuration a document without `log_level` decodes to. */
  const EmptyConfig: Config := Config("")

  /** What happened when the configuration file was read: opening it failed,
      decoding its JSON failed, or it decoded to a `Config`. The JSON decoder
      itself is not modelled; its verdict is this value. */
  datatype ConfigRead =
    | OpenFailed(openErr: Err)
    | DecodeFailed(decodeErr: Err)
    | Decoded(config: Config)

  /** The pair `(zapcore.Level, error)` that `loadLogLevel` returns; `Nil` stands
      for a `nil` error. */
  datatype Loaded = Loaded(level: Level, err: Option<Err>)

  /** Maps a free-text level name to a level, ignoring letter case. Names other
      than the six selectable level names, the empty string included, give the
      default level. */
  function StringToLevel(s: string): (r: Level)
    ensures r in Selectable
    ensures r != DefaultLevel ==> Lower(s) == Name(r)
    ensures forall l :: l in Selectable && Lower(s) == Name(l) ==> r == l
  {
    var w := Lower(s);
    if w == "debug" then Debug
    else if w == "info" then Info
    else if w == "warn" then Warn
    else if w == "error" then Error
    else if w == "fatal" then Fatal
    else if w == "panic" then Panic
    else DefaultLevel
  }

  /** Classifies a read of the configuration file: a missing file is not an
      error, any other open or decode failure is reported with the default
      level, and a decoded document gives the level it names. */
  function LoadLogLevel(read: ConfigRead): (r: Loaded)
    ensures r.err.Some? ==> r.level == DefaultLevel
    ensures r.err.Nil? <==> read.Decoded? || (read.OpenFailed? && IsNotExist(read.openErr))
    ensures read.OpenFailed? && IsNotExist(read.openErr) ==> r == Loaded(DefaultLevel, Nil)
    ensures read.OpenFailed? && !IsNotExist(read.openErr) ==> r.err == Some(read.openErr)
    ensures read.DecodeFailed? ==> r.err == Some(read.decodeErr)
    ensures read.Decoded? ==> r.level == StringToLevel(read.config.logLevel)
    ensures r.level in Selectable
  {
    match read
    case OpenFailed(e) =>
      if IsNotExist(e) then Loaded(DefaultLevel, Nil) else Loaded(DefaultLevel, Some(e))
    case DecodeFailed(e) => Loaded(DefaultLevel, Some(e))
    case Decoded(config) => Loaded(StringToLevel(config.logLevel), Nil)
  }

  /** Each selectable level's own name selects it, and so does every
      capitalisation of it ("INFO", "Info", "info"). */
  lemma NameSelectsLevel(l: Level, s: string)
    requires l in Selectable
    requires CaseVariant(s, Name(l))
    ensures StringToLevel(s) == l
  {
    var w := Name(l);
    assert forall i :: 0 <= i < |w| ==> IsAsciiLower(w[i]);
    LowerUndoesCapitals(s, w);
  }

  /** The mapping ignores letter case: a string and its lower-case form, and more
      generally any two strings that lower-case alike, select the same level. */
  lemma CaseInsensitive(s: string, t: string)
    ensures StringToLevel(Lower(s)) == StringToLevel(s)
    ensures Lower(s) == Lower(t) ==> StringToLevel(s) == StringToLevel(t)
  {
    LowerIdempotent(s);
  }

  /** Exactly when a string selects a level: a non-default level is selected iff
      the string lower-cases to its name; the default is selected iff the string
      lower-cases to "info" or to no selectable name at all. */
  lemma SelectsIff(s: string, l: Level)
    ensures l != DefaultLevel ==> (StringToLevel(s) == l <==> l in Selectable && Lower(s) == Name(l))
    ensures StringToLevel(s) == DefaultLevel <==>
      (forall k :: k in Selectable && k != DefaultLevel ==> Lower(s) != Name(k))
  {
    if StringToLevel(s) != DefaultLevel {
      var k := StringToLevel(s);
      assert k in Selectable && k != DefaultLevel && Lower(s) == Name(k);
    }
  }

  /** An unrecognised name, the empty string among them, gives the default. */
  lemma UnknownNameIsDefault(s: string)
    requires forall l :: l in Selectable ==> Lower(s) != Name(l)
    ensures StringToLevel(s) == DefaultLevel
  {
  }

  /** A name written with U+0130 in place of a capital I selects the level, as
      `strings.ToLower` lowers that character to 'i'. */
  lemma DottedCapitalI()
    ensures StringToLevel("\U{0130}NFO") == Info
  {
    var r := Lower("\U{0130}NFO");
    assert r[0] == 'i' && r[1] == 'n' && r[2] == 'f' && r[3] == 'o';
    assert r == "info";
  }

  /** "dpanic", zap's own name for DPanic, is not selectable and gives the
      default. */
  lemma DPanicNameIsDefault()
    ensures StringToLevel("dpanic") == DefaultLevel
  {
    var r := Lower("dpanic");
    assert r[0] == 'd';
    assert forall l :: l in Selectable ==> r != Name(l);
  }

  /** A missing configuration file, and a configuration without `log_level`,
      both yield the default level and no error. */
  lemma DefaultsWithoutConfiguration(e: Err)
    requires IsNotExist(e)
    ensures LoadLogLevel(OpenFailed(e)) == Loaded(DefaultLevel, Nil)
    ensures LoadLogLevel(Decoded(EmptyConfig)) == Loaded(DefaultLevel, Nil)
  {
    assert Lower("") == "";
  }
}

=== FILE: levels.dfy ===
/** The severity levels of the zap logging library (zapcore.Level), which the
    logger configures and filters by. */
module Levels {

  /** The named zapcore levels. In zap a level is an int8 constant; `Rank`
      gives each one its integer value. */
  datatype Level = Debug | Info | Warn | Error | DPanic | Panic | Fatal

  /** The integer value of the zapcore constant for each level. The order of
      severity is the order of these integers: Panic sits below Fatal. */
  function Rank(l: Level): (r: int)
    ensures -1 <= r <= 5
    ensures l == Debug <==> r == -1
    ensures l == Fatal <==> r == 5
  {
    match l
    case Debug => -1
    case Info => 0
    case Warn => 1
    case Error => 2
    case DPanic => 3
    case Panic => 4
    case Fatal => 5
  }

  /** All levels from least to most severe: the order in which zapcore
      declares its constants. */
  const Ordered: seq<Level> := [Debug, Info, Warn, Error, DPanic, Panic, Fatal]

  /** Where a level sits in `Ordered`. */
  function Position(l: Level): (p: nat)
    ensures p < |Ordered| && Ordered[p] == l
  {
    match l
    case Debug => 0
    case Info => 1
    case Warn => 2
    case Error => 3
    case DPanic => 4
    case Panic => 5
    case Fatal => 6
  }

  /** The default level the logger falls back to. */
  const DefaultLevel: Level := Info

  /** The six levels a configuration file can name. DPanic is not among them. */
  const Selectable: set<Level> := {Debug, Info, Warn, Error, Fatal, Panic}

  /** The lower-case name zap gives each level (zapcore.Level.String). */
  function Name(l: Level): string {
    match l
    case Debug => "debug"
    case Info => "info"
    case Warn => "warn"
    case Error => "error"
    case DPanic => "dpanic"
    case Panic => "panic"
    case Fatal => "fatal"
  }

  /** Severity is a strict total order on levels: two levels of equal rank are
      the same level, and `Rank` agrees with the declaration order. */
  lemma RankIsOrder(a: Level, b: Level)
    ensures Rank(a) == Rank(b) ==> a == b
    ensures Rank(a) <= Rank(b) <==> Position(a) <= Position(b)
  {
  }
}
